=== FILE: README.md ===
# A model of a federated name-resolution node

The system is a small name server. Each node keeps a local table from
hostnames to IP strings. Nodes answer lookups over UDP with fixed 1024-byte
datagrams. When a node has no entry for a hostname, it asks its registered
peer nodes ("links") one after another, in the order they were registered.
It stops at the first peer that answers.

This project models the sequential core of `server.cpp` as pure Dafny
functions over immutable values and proves properties about them:

- `Bytes`: C `char` values (signed, 8 bits). A `std::string` is a
  `seq<Byte>`. `CString` is the string a `char *` denotes, as used by
  `strcpy` and `std::string(const char *)`.
- `Outcomes`: `Option`, `Result`, and `Fatal`. `Fatal` lists the
  `logExit` conditions of the modelled core. It also has `PayloadOverrun`,
  which stands for the source reading past the end of its buffer.
- `Wire`: the datagram layout. Byte 0 is the type (1 = request,
  2 = response), and bytes 1.. hold a NUL-terminated payload. A not-found
  response is `2, -1, 0, 0, …`. `Wire` also holds the encoders, the
  zero-filled receive buffer, and the listener's dispatch on byte 0 and
  byte 1.
- `Ports`: `(uint16_t) atoi(port)`, as `addressParse` computes it.
- `Registry`: the `hosts` map and `addHost`'s upsert.
- `Links`: the ordered `links` list, `addressParse`, and `connectLink`.
- `Resolver`: `searchHostOnLinkedServers` as a fold over the links, and
  `searchHost`'s three-step policy. The three steps are: a local hit wins,
  no links means not-found, otherwise the first link that answers.
- `Listener`: one turn of the loop in `connection_handler`, plus a
  two-node example of one hop of federation.

The network is a parameter. `Peer` says what each link returns for a
request buffer: the send failed, no reply arrived (the five-second timeout
or any other receive error), or a datagram arrived. The listener's incoming
datagram is a parameter too. `inet_pton` is a pair of predicates (`Pton`).
Whether the socket for a new link could be set up is a boolean.

## Model

| member | source | states |
|---|---|---|
| Bytes.CString | server.cpp:310 | the copied string has no NUL; it is a prefix of the source bytes; it ends where the source ends or at a NUL; a NUL-free string is copied whole |
| Bytes.CStringOfTerminated | server.cpp:154 | reading a NUL-terminated payload yields exactly the bytes before the terminator |
| Bytes.CStringOfPadded | server.cpp:253-256 | zero fill after a received payload does not change the string read from it |
| Bytes.CStringOfPrefix | server.cpp:256 | cutting a datagram to the buffer after a NUL it contains does not change the string read from it |
| Wire.Frame | server.cpp:157-159 | an encoded message is exactly 1024 bytes: the tag in byte 0, the payload (up to its first NUL) from byte 1, and zeros after it |
| Wire.RequestFrame | server.cpp:306-310 | a request to a link is a full buffer whose byte 0 is the request tag 1 |
| Wire.FoundFrame | server.cpp:157-159 | a found response is a full buffer whose byte 0 is the response tag 2; with `Frame` and `FoundRoundTrip`, the address follows from byte 1 |
| Wire.NotFoundFrame | server.cpp:176-179 | the not-found response has byte 0 = 2, byte 1 = -1, and every byte from 2 on is 0 |
| Wire.EncodeAnswer | server.cpp:165-172 | an answer is encoded as a response; a not-found answer carries the -1 mark in byte 1 |
| Wire.Deliver | server.cpp:252-257 | the receive buffer holds the datagram's first 1024 bytes, and zeros after a shorter datagram |
| Wire.ReadPayload | server.cpp:154 | the payload read is the NUL-free run from byte 1 up to its terminator, at most 1022 bytes; there is no payload exactly when bytes 1.. hold no NUL |
| Wire.Decode | server.cpp:152-191 | the type is unknown exactly when byte 0 is neither 1 nor 2; a buffer is a request exactly when byte 0 is 1 and bytes 1.. hold a NUL; it is a found response exactly when byte 0 is 2, byte 1 is not -1 and bytes 1.. hold a NUL; a message is not-found exactly when byte 0 is 2 and byte 1 is -1; a decoded hostname or address is exactly the C string from byte 1, NUL-free and at most 1022 bytes; the payload overruns exactly when a request or found response has no NUL after byte 0 |
| Wire.ReadFrame | server.cpp:308-310 | the payload read back from an encoded buffer is the string `strcpy` copied into it |
| Wire.RequestRoundTrip | server.cpp:308-310 | a request for a NUL-free hostname of at most 1022 bytes decodes to that hostname |
| Wire.NotFoundRoundTrip | server.cpp:176-185 | the not-found response decodes as not-found |
| Wire.FoundRoundTrip | server.cpp:157-159 | a found response decodes back to its address when the address is NUL-free, fits, and does not start with byte -1 |
| Wire.FoundShadowedByMark | server.cpp:184 | a found response whose address starts with byte -1 (0xFF) decodes as not-found |
| Wire.AnswerRoundTrip | server.cpp:165-188 | each answer the listener can encode is decoded back as that answer |
| Wire.DeliverKeepsPayload | server.cpp:252-257 | the payload read from a received buffer is the C string the datagram carries from byte 1, for short datagrams and cut ones alike |
| Wire.RequestWithTrailingBytes | server.cpp:154 | the tag, a hostname and a terminator, followed by any bytes at all, decode as a request for that hostname |
| Wire.DeliverBuffer | server.cpp:256 | receiving a full 1024-byte buffer reproduces it unchanged |
| Ports.Atoi | server.cpp:337 | text with no sign or digit after its leading white space reads as 0; a negative value needs a minus sign after the white space; `AtoiOfDecimal`, `AtoiOfNegative`, `AtoiIgnoresTrailing` and `AtoiSkipsSpace` give its value |
| Ports.PortNumber | server.cpp:337 | the port is less than 65536 and congruent to the `atoi` value modulo 65536 (the conversion to `uint16_t`), so an `atoi` value that is a multiple of 65536 gives port 0; it equals the `atoi` value when that value is in 1..65535 |
| Ports.AtoiOfDecimal | server.cpp:337 | `atoi` reads back every number written in decimal |
| Ports.PortOfDecimal | server.cpp:337-340 | a decimal port string below 65536 names that port, so "0" names port 0 |
| Ports.PortWrapsAround | server.cpp:337 | "65536 + n" names port n, so "65536" narrows to 0 and is rejected |
| Ports.AtoiOfNegative | server.cpp:337 | a minus sign followed by a decimal number reads as its negation |
| Ports.AtoiIgnoresTrailing | server.cpp:337 | reading stops at the first byte that is not a digit, so "80abc" is 80 |
| Ports.AtoiSkipsSpace | server.cpp:337 | leading white space is skipped, so " 80" is 80 |
| Ports.NegativePortWraps | server.cpp:337 | "-n" names port 65536 - n and is accepted |
| Ports.NonNumericPortIsZero | server.cpp:337-340 | a port string that does not start with white space, a sign or a digit narrows to 0 |
| Registry.Lookup | server.cpp:275 | a lookup finds a value exactly when the hostname is a key, and the value is the one stored |
| Registry.AddHost | server.cpp:274-283 | after the add, the hostname maps to the new IP and every other hostname is unchanged; the key set gains only this hostname; the result says "updated" exactly when the key existed; the size grows by one on an insert and not at all on an update |
| Registry.LastAddWins | server.cpp:276-277 | after two adds for the same hostname, the second IP wins, the second add reports an update, and the key set is unchanged by it |
| Registry.AddHostKeepsEncodable | server.cpp:159 | adding an IP that fits keeps every stored IP copyable into a response |
| Links.ParseAddress | server.cpp:331-362 | parsing succeeds exactly when the port narrows to a nonzero value and the address is an IPv4 or IPv6 literal; IPv4 is chosen when both apply; the port number is kept; every failure is an address error |
| Links.FindEndpoint | server.cpp:367-373 | the scan reports true exactly when some link has this (ip, port) pair |
| Links.ConnectLink | server.cpp:364-391 | an existing pair leaves the table unchanged and reports it; a new pair is appended at the end, carrying the address just parsed, and the old links stay as they were; success requires a nonzero port, a recognised address and a socket; any parse failure, a port of 0 or an address that is neither an IPv4 nor an IPv6 literal, is an address error; a parsed address without a socket is a socket error |
| Links.ConnectKeepsRegistered | server.cpp:364-391 | connecting keeps the table free of duplicate pairs, with every link holding its parsed nonzero port |
| Links.ZeroPortRejected | server.cpp:337-340 | in a table built by connecting, a port that narrows to 0 always fails with an address error |
| Links.DuplicateConnectRejected | server.cpp:368-376 | connecting the same pair a second time changes nothing and reports that the link exists |
| Resolver.Classify | server.cpp:320-326 | a link's reply is skipped exactly when there was no reply or byte 1 is -1; it is an answer exactly when a non-empty datagram arrived whose received buffer has byte 1 other than -1 and a NUL after byte 0; an empty reply is fatal, and so is a failed send; an answer is NUL-free, fits a buffer, and is exactly the reply's C string from byte 1, at any reply length |
| Resolver.ClassifyReply | server.cpp:323-325 | a reply that carries an address not starting with -1 is an answer with that address, whatever its byte 0 |
| Resolver.Federate | server.cpp:301-329 | at most the registered links are queried; every link before the last one queried was skipped; when the chain stops early, the last link queried gave the answer; the answer is NUL-free and fits a buffer |
| Resolver.FederateFirstHit | server.cpp:302-326 | the chain returns the answer of the first link in registration order that did not miss, after querying exactly the links up to it |
| Resolver.FederateAllMiss | server.cpp:327-328 | when every link misses, all links are queried and the result is "-1" |
| Resolver.FederateFirstAbort | server.cpp:314-320 | a fatal exchange with the first link that did not miss ends the chain with that error |
| Resolver.FederateIgnoresLaterLinks | server.cpp:323-326 | links after the one that answered are not consulted: replies that agree on the queried links give the same result |
| Resolver.SearchHost | server.cpp:285-299 | a local hit returns the local IP; with no local entry and no links the result is not-found; a not-found result means there was no local entry |
| Resolver.SearchLocalIgnoresPeers | server.cpp:286-288 | a local hit does not depend on any link's reply |
| Resolver.SearchFirstHit | server.cpp:289-295 | with no local entry, the first link that answers decides the result; an answer that is literally "-1" is reported as not-found |
| Resolver.SearchAllMiss | server.cpp:289-298 | with no local entry and every link missing, the result is not-found |
| Listener.Receive | server.cpp:252-262 | an empty datagram is the only receive that is fatal; a failed receive leaves an all-zero buffer; any other datagram yields exactly the delivered buffer (`Deliver`), whose byte 0 is the datagram's first byte |
| Listener.Serve | server.cpp:147-193 | an empty datagram is fatal; a failed receive is fatal as message type 0; an unknown type byte is fatal; a reply is always a full response buffer, sent only in answer to a request |
| Listener.ServeAgreesWithSearch | server.cpp:153-182 | for every datagram that decodes as a request, the listener's answer is the encoding of what `searchHost` reports for that hostname, fatal errors included |
| Listener.ServeLocalFirst | server.cpp:155-161 | every datagram that decodes as a request for a local hostname is answered with its local IP, whatever the links would say |
| Listener.ServeNoLinks | server.cpp:175-181 | every datagram that decodes as a request, with no local entry and no links, is answered with the not-found response |
| Listener.ServeReportsResponse | server.cpp:183-189 | every datagram that decodes as a response is reported as the answer it carries, and nothing is sent back |
| Listener.ServeReportsEncodedAnswer | server.cpp:183-189 | a response the listener itself could send is reported as the answer it encodes |
| Listener.RelayedAnswer | server.cpp:162-174 | a node with no entry and one link to a node that has one answers with that node's IP |
| Listener.WebExample | server.cpp:162-174 | node B, linked to node A where "web" maps to "10.0.0.5", answers a request for "web" with "10.0.0.5" |

## Left out

- Socket creation, `setsockopt`, `bind`, `listen`, `sendto` and `recvfrom` are operating-system I/O. They appear only as parameters: the `Peer` exchange per link, the listener's `Incoming` datagram, and `ConnectLink`'s `socketReady` flag.
- The listener's own `sendMessage` failure is not modelled. A turn returns the buffer to send, and sending it is left to the caller. The per-link send failure is modelled, as `SendFailed`.
- The `pthread` listener thread and the unsynchronised sharing of `hosts` and `links` are left out, because concurrency is not a sequential core. `Serve` is a single turn that reads the node state and never changes it.
- The five-second receive timeout is wall-clock behaviour. It shows up only as `NoReply`, which covers every negative receive count.
- `inet_pton` is a library call and is modelled by the two predicates of `Pton`. The binary socket address, `htons` byte order and `initializeServerAddress` are left out. A link keeps its address text, family and port number.
- Ports.PortNumber: `atoi` overflow beyond `int` is undefined behaviour in C, and the model reads an unbounded value before narrowing it to 16 bits.
- Signed `char`: the model assumes `char` is signed, as on x86. With an unsigned `char`, the source's comparison of byte 1 with -1 could never succeed.
- Wire.ReadPayload: when bytes 1..1023 of a buffer hold no NUL, the source reads past the buffer (undefined behaviour). The model stops with `PayloadOverrun` instead.
- Wire.Frame: `strcpy` of a payload longer than 1022 bytes overflows the buffer. Encoding therefore requires the payload to fit, and the source does not check this.
- Listener.Serve: requires every stored IP to fit a response buffer. The source also serves tables holding an oversize IP, and overflows only when that IP is sent; the model does not cover such tables.
- Resolver.SearchHost: requires a hostname that goes to the links to fit a request buffer. The source sends longer hostnames anyway, overflowing the buffer.
- The interactive command loop, the file replay in `validateInputParameters`, and all console output are left out. `logExit` is modelled as a `Fatal` result.
- The `Response` branch of the listener only prints. The model returns `Report(answer)` and does not correlate it with any outstanding query.

## Behaviour worth noting

- `connectLink` calls `logExit` on every address error, whether the command came from the prompt or from the startup file (server.cpp:379-381). `ConnectLink` therefore returns `Fail(AddressError)` on every such path.
- Byte 0 of a link's reply is never checked (server.cpp:323). A reply tagged as a request still counts as an answer (see `Resolver.ClassifyReply`).

=== FILE: bytes.dfy ===
/** Bytes and C strings as the name-resolution node handles them. */
module Bytes {

  /** A C `char` on the targets the node is built for: eight bits, signed. */
  newtype Byte = x: int | -128 <= x < 128

  /** A `std::string`, byte by byte. */
  type Text = seq<Byte>

  const Nul: Byte := 0

  /** The zero fill `memset` leaves behind. */
  function Zeros(n: nat): (z: Text)
    ensures |z| == n
    ensures forall i :: 0 <= i < n ==> z[i] == Nul
  {
    seq(n, _ => Nul)
  }

  predicate NulFree(t: Text) {
    forall i :: 0 <= i < |t| ==> t[i] != Nul
  }

  /** Position of the first NUL in `t`, or `|t|` when there is none. */
  function NulIndex(t: Text): (k: nat)
    ensures k <= |t|
    ensures forall i :: 0 <= i < k ==> t[i] != Nul
    ensures k < |t| ==> t[k] == Nul
  {
    if t == [] then 0
    else if t[0] == Nul then 0
    else 1 + NulIndex(t[1..])
  }

  /** The string a `char *` denotes: every byte before the first NUL.
      This is what `strcpy` copies and what `std::string(const char *)` reads. */
  function CString(t: Text): (c: Text)
    ensures NulFree(c)
    ensures c <= t
    ensures c == t || t[|c|] == Nul
    ensures NulFree(t) ==> c == t
  {
    t[..NulIndex(t)]
  }

  /** A string without NUL bytes survives `c_str()` intact. */
  lemma CStringOfNulFree(t: Text)
    requires NulFree(t)
    ensures CString(t) == t
  {
  }

  /** Reading a NUL-terminated string stops exactly at its terminator. */
  lemma CStringOfTerminated(c: Text, rest: Text)
    requires NulFree(c)
    requires rest != [] && rest[0] == Nul
    ensures CString(c + rest) == c
  {
    assert (c + rest)[..|c|] == c;
  }

  /** Zero padding after a string does not change the string it denotes. */
  lemma CStringOfPadded(t: Text, n: nat)
    requires n > 0
    ensures CString(t + Zeros(n)) == CString(t)
  {
    var u := t + Zeros(n);
    var k := NulIndex(t);
    assert u[k] == Nul;
    assert NulIndex(u) == k;
    assert u[..k] == t[..k];
  }

  /** Cutting a string after a NUL it contains does not change the string
      it denotes. */
  lemma CStringOfPrefix(t: Text, n: nat)
    requires n <= |t| && !NulFree(t[..n])
    ensures CString(t[..n]) == CString(t)
  {
    var k := NulIndex(t[..n]);
    assert k < n;
    assert t[k] == Nul;
    assert NulIndex(t) == k;
    assert t[..n][..k] == t[..k];
  }
}

=== FILE: links.dfy ===
/** The ordered table of peer nodes ("links") a node forwards lookups to. */
module Links {
  import opened Bytes
  import opened Outcomes
  import opened Ports

  /** A link's identity: the address and port strings it was registered with. */
  datatype Endpoint = Endpoint(ip: Text, port: Text)

  datatype Family = V4 | V6

  /** The socket address a link's queries are sent to. */
  datatype PeerAddress = PeerAddress(family: Family, ip: Text, port: nat)

  datatype Link = Link(endpoint: Endpoint, address: PeerAddress)

  /** What `inet_pton` recognises, for IPv4 and for IPv6 text. */
  datatype Pton = Pton(v4: Text -> bool, v6: Text -> bool)

  datatype Connected = AlreadyExists | Added

  /** `addressParse`: the port must not narrow to 0, and the address must be
      an IPv4 literal or, failing that, an IPv6 literal. */
  function ParseAddress(ip: Text, port: Text, pton: Pton): (r: Result<PeerAddress>)
    ensures r.Ok? <==> PortNumber(port) != 0 && (pton.v4(ip) || pton.v6(ip))
    ensures r.Ok? ==> r.value.ip == ip && r.value.port == PortNumber(port)
    ensures r.Ok? ==> (r.value.family == V4 <==> pton.v4(ip))
    ensures r.Fail? ==> r.error == AddressError
  {
    var p := PortNumber(port);
    if p == 0 then Fail(AddressError)
    else if pton.v4(ip) then Ok(PeerAddress(V4, ip, p))
    else if pton.v6(ip) then Ok(PeerAddress(V6, ip, p))
    else Fail(AddressError)
  }

  predicate HasEndpoint(links: seq<Link>, e: Endpoint) {
    exists i :: 0 <= i < |links| && links[i].endpoint == e
  }

  predicate NoDuplicates(links: seq<Link>) {
    forall i, j :: 0 <= i < j < |links| ==> links[i].endpoint != links[j].endpoint
  }

  /** What every table built by `ConnectLink` satisfies: endpoints are
      unique and every link's socket address carries its parsed, nonzero port. */
  predicate Registered(links: seq<Link>) {
    && NoDuplicates(links)
    && forall i :: 0 <= i < |links| ==>
         links[i].address.port == PortNumber(links[i].endpoint.port) != 0
  }

  /** The scan over the table that looks for an `(ip, port)` pair. */
  method FindEndpoint(links: seq<Link>, e: Endpoint) returns (found: bool)
    ensures found <==> HasEndpoint(links, e)
  {
    found := false;
    var i := 0;
    while i < |links|
      invariant 0 <= i <= |links|
      invariant !found
      invariant forall j :: 0 <= j < i ==> links[j].endpoint != e
    {
      if links[i].endpoint == e {
        found := true;
        return;
      }
      i := i + 1;
    }
  }

  /** `connectLink`: a pair already present leaves the table as it is; a new
      pair is parsed, given its socket and appended at the end. A parse or
      socket failure is fatal. `socketReady` says whether the socket could be set up. */
  function ConnectLink(links: seq<Link>, ip: Text, port: Text, pton: Pton, socketReady: bool)
    : (r: Result<(seq<Link>, Connected)>)
    ensures HasEndpoint(links, Endpoint(ip, port)) ==> r == Ok((links, AlreadyExists))
    ensures !HasEndpoint(links, Endpoint(ip, port)) && r.Ok? ==>
              && r.value.1 == Added
              && |r.value.0| == |links| + 1
              && r.value.0[..|links|] == links
              && r.value.0[|links|].endpoint == Endpoint(ip, port)
    ensures !HasEndpoint(links, Endpoint(ip, port)) && r.Ok? ==>
              ParseAddress(ip, port, pton).Ok?
              && r.value.0[|links|].address == ParseAddress(ip, port, pton).value
    ensures !HasEndpoint(links, Endpoint(ip, port)) && ParseAddress(ip, port, pton).Ok? && !socketReady ==>
              r == Fail(SocketError)
    ensures !HasEndpoint(links, Endpoint(ip, port)) ==>
              (r.Ok? <==> ParseAddress(ip, port, pton).Ok? && socketReady)
    ensures !HasEndpoint(links, Endpoint(ip, port)) && ParseAddress(ip, port, pton).Fail? ==>
              r == Fail(AddressError)
    ensures !HasEndpoint(links, Endpoint(ip, port)) && PortNumber(port) == 0 ==>
              r == Fail(AddressError)
    ensures r.Ok? ==> HasEndpoint(r.value.0, Endpoint(ip, port))
  {
    var e := Endpoint(ip, port);
    if HasEndpoint(links, e) then Ok((links, AlreadyExists))
    else
      var address :- ParseAddress(ip, port, pton);
      if !socketReady then Fail(SocketError)
      else Ok((links + [Link(e, address)], Added))
  }

  /** `ConnectLink` keeps the table free of duplicates, with parsed ports. */
  lemma ConnectKeepsRegistered(links: seq<Link>, ip: Text, port: Text, pton: Pton, socketReady: bool)
    requires Registered(links)
    ensures var r := ConnectLink(links, ip, port, pton, socketReady);
            r.Ok? ==> Registered(r.value.0)
  {
  }

  /** Once a table is registered, a port that narrows to 0 can never be
      linked: the pair is not present, so it is parsed, and parsing fails. */
  lemma ZeroPortRejected(links: seq<Link>, ip: Text, port: Text, pton: Pton, socketReady: bool)
    requires Registered(links)
    requires PortNumber(port) == 0
    ensures ConnectLink(links, ip, port, pton, socketReady) == Fail(AddressError)
  {
  }

  /** Connecting the same pair twice leaves exactly one link for it, and the
      second call reports that the link already exists. */
  lemma DuplicateConnectRejected(links: seq<Link>, ip: Text, port: Text, pton: Pton, socketReady: bool)
    requires Registered(links)
    requires ConnectLink(links, ip, port, pton, socketReady).Ok?
    ensures var once := ConnectLink(links, ip, port, pton, socketReady).value.0;
            ConnectLink(once, ip, port, pton, socketReady) == Ok((once, AlreadyExists))
            && Registered(once)
  {
    ConnectKeepsRegistered(links, ip, port, pton, socketReady);
  }
}

=== FILE: listener.dfy ===
/** One turn of the listener loop in `connection_handler`: receive a
    datagram, decode it, and either answer a request or report a response. */
module Listener {
  import opened Bytes
  import opened Outcomes
  import opened Wire
  import opened Registry
  import opened Links
  import opened Resolver

  /** What `recvfrom` on the listening socket produced: a negative count, or
      a datagram (possibly empty). */
  datatype Incoming = RecvFailed | Datagram(data: seq<Byte>)

  /** What the turn does: send `reply` back to the sender, or show the
      answer carried by a response. */
  datatype Action = Respond(reply: seq<Byte>) | Report(answer: Resolution)

  /** `receiveMessage`: the buffer is zeroed before the receive, so a failed
      receive leaves it all zero; an empty datagram ends the process. */
  function Receive(incoming: Incoming): (r: Result<seq<Byte>>)
    ensures r.Ok? ==> IsBuffer(r.value)
    ensures r.Fail? <==> incoming == Datagram([])
    ensures r.Fail? ==> r.error == EmptyDatagram
    ensures incoming.RecvFailed? ==> forall i :: 0 <= i < BufferSize ==> r.value[i] == Nul
    ensures incoming.Datagram? && incoming.data != [] ==> r == Ok(Deliver(incoming.data))
    ensures incoming.Datagram? && incoming.data != [] ==> r.value[0] == incoming.data[0]
  {
    match incoming
    case RecvFailed => Ok(Zeros(BufferSize))
    case Datagram(data) =>
      if data == [] then Fail(EmptyDatagram) else Ok(Deliver(data))
  }

  /** One turn of the listener. Requests are answered with the local entry,
      else with not-found when there are no links, else with the chain's
      answer ("-1" becoming the not-found response); responses are reported;
      any other type is fatal. */
  function Serve(node: Node, incoming: Incoming, peer: Peer): (r: Result<Action>)
    requires Encodable(node.hosts)
    ensures incoming == Datagram([]) ==> r == Fail(EmptyDatagram)
    ensures incoming.RecvFailed? ==> r == Fail(UnknownMessageType(0))
    ensures incoming.Datagram? && incoming.data != [] && incoming.data[0] != RequestTag
              && incoming.data[0] != ResponseTag ==>
              r == Fail(UnknownMessageType(incoming.data[0] as int))
    ensures r.Ok? && r.value.Respond? ==> IsBuffer(r.value.reply) && r.value.reply[0] == ResponseTag
    ensures r.Ok? && r.value.Respond? ==> incoming.Datagram? && incoming.data[0] == RequestTag
  {
    var b :- Receive(incoming);
    var msg :- Decode(b);
    match msg
    case Response(answer) => Ok(Report(answer))
    case Request(hostname) =>
      if hostname in node.hosts then
        Ok(Respond(FoundFrame(node.hosts[hostname])))
      else if node.links != [] then
        var result :- Federate(node.links, hostname, peer);
        if result.ip == NotFoundText then Ok(Respond(NotFoundFrame()))
        else Ok(Respond(FoundFrame(result.ip)))
      else
        Ok(Respond(NotFoundFrame()))
  }

  /** The listener and `searchHost` follow the same policy: the response to
      any datagram that decodes as a request is the encoding of what
      `searchHost` reports for its hostname. */
  lemma ServeAgreesWithSearch(node: Node, data: seq<Byte>, hostname: Text, peer: Peer)
    requires Encodable(node.hosts)
    requires data != [] && Decode(Deliver(data)) == Ok(Request(hostname))
    ensures Fits(hostname) && Forwardable(node, hostname)
    ensures var s := SearchHost(node, hostname, peer);
            var r := Serve(node, Datagram(data), peer);
            && (s.Fail? ==> r == Fail(s.error))
            && (s.Ok? ==> (s.value.Found? ==> Fits(s.value.ip))
                          && r == Ok(Respond(EncodeAnswer(s.value))))
  {
    CStringOfNulFree(hostname);
  }

  /** A request for a local hostname is answered with its local address,
      whatever the links would have said. */
  lemma ServeLocalFirst(node: Node, data: seq<Byte>, hostname: Text, peer: Peer)
    requires Encodable(node.hosts)
    requires data != [] && Decode(Deliver(data)) == Ok(Request(hostname))
    requires hostname in node.hosts
    ensures Serve(node, Datagram(data), peer) == Ok(Respond(FoundFrame(node.hosts[hostname])))
  {
  }

  /** With no local entry and no links, a request is answered with the
      not-found response. */
  lemma ServeNoLinks(node: Node, data: seq<Byte>, hostname: Text, peer: Peer)
    requires Encodable(node.hosts)
    requires data != [] && Decode(Deliver(data)) == Ok(Request(hostname))
    requires hostname !in node.hosts && node.links == []
    ensures Serve(node, Datagram(data), peer) == Ok(Respond(NotFoundFrame()))
  {
  }

  /** Any datagram that decodes as a response is reported as the answer it
      carries, and nothing is sent back. */
  lemma ServeReportsResponse(node: Node, data: seq<Byte>, answer: Resolution, peer: Peer)
    requires Encodable(node.hosts)
    requires data != [] && Decode(Deliver(data)) == Ok(Response(answer))
    ensures Serve(node, Datagram(data), peer) == Ok(Report(answer))
  {
  }

  /** In particular, a response the listener itself could have sent is
      reported as the answer it encodes. */
  lemma ServeReportsEncodedAnswer(node: Node, answer: Resolution, peer: Peer)
    requires Encodable(node.hosts)
    requires answer.Found? ==> NulFree(answer.ip) && |answer.ip| <= MaxPayload
    requires answer.Found? ==> answer.ip == [] || answer.ip[0] != NotFoundMark
    ensures answer.Found? ==> Fits(answer.ip)
    ensures Serve(node, Datagram(EncodeAnswer(answer)), peer) == Ok(Report(answer))
  {
    AnswerRoundTrip(answer);
    DeliverBuffer(EncodeAnswer(answer));
    ServeReportsResponse(node, EncodeAnswer(answer), answer, peer);
  }

  /** The network as seen by a node whose link `link` leads to node `other`:
      that link answers with whatever `other`'s listener sends back, and a
      turn of `other` that sends nothing looks like a timeout. */
  function Relay(link: Link, other: Node, beyond: Peer): Peer {
    (l: Link, request: seq<Byte>) =>
      if l == link && Encodable(other.hosts) then
        match Serve(other, Datagram(request), beyond)
        case Ok(Respond(reply)) => Received(reply)
        case _ => NoReply
      else NoReply
  }

  /** One hop of federation end to end: a node with no entry for `hostname`
      and a single link to a node that has one relays that node's address. */
  lemma RelayedAnswer(near: Node, far: Node, link: Link, hostname: Text, beyond: Peer)
    requires Encodable(near.hosts) && Encodable(far.hosts)
    requires NulFree(hostname) && |hostname| <= MaxPayload
    requires hostname !in near.hosts && near.links == [link]
    requires hostname in far.hosts
    requires var ip := far.hosts[hostname];
             NulFree(ip) && |ip| <= MaxPayload && (ip == [] || ip[0] != NotFoundMark)
             && ip != NotFoundText
    ensures Fits(hostname) && Fits(far.hosts[hostname])
    ensures Serve(near, Datagram(RequestFrame(hostname)), Relay(link, far, beyond))
              == Ok(Respond(FoundFrame(far.hosts[hostname])))
  {
    var ip := far.hosts[hostname];
    RequestRoundTrip(hostname);
    var request := RequestFrame(hostname);
    DeliverBuffer(request);
    var peer := Relay(link, far, beyond);
    assert peer(link, request) == Received(FoundFrame(ip)) by {
      ServeLocalFirst(far, request, hostname, beyond);
    }
    ClassifyReply(ResponseTag, ip);
    SearchFirstHit(near, hostname, peer, 0, ip);
    ServeAgreesWithSearch(near, request, hostname, peer);
  }

  /** Two nodes: A maps "web" to "10.0.0.5" and has no links; B has no entry
      and a single link, which leads to A. B answers a request for "web"
      with "10.0.0.5". */
  lemma WebExample(link: Link, beyond: Peer)
    ensures var web: Text := [119, 101, 98];
            var ip: Text := [49, 48, 46, 48, 46, 48, 46, 53];
            var a := Node(map[web := ip], []);
            var b := Node(map[], [link]);
            Encodable(a.hosts) && Encodable(b.hosts) && Fits(web) && Fits(ip)
            && Serve(b, Datagram(RequestFrame(web)), Relay(link, a, beyond))
                 == Ok(Respond(FoundFrame(ip)))
  {
    var web: Text := [119, 101, 98];
    var ip: Text := [49, 48, 46, 48, 46, 48, 46, 53];
    var a := Node(map[web := ip], []);
    var b := Node(map[], [link]);
    CStringOfNulFree(ip);
    RelayedAnswer(b, a, link, web, beyond);
  }
}

=== FILE: outcomes.dfy ===
/** Results of the node's operations. Where the modelled core calls
    `logExit` and ends the process, the model returns a `Fatal` value instead. */
module Outcomes {

  datatype Option<+T> = None | Some(value: T)

  /** The `logExit` conditions of the modelled core (startup, thread
      creation, file replay and binding are not part of it), plus
      `PayloadOverrun` for the source's read past the end of its buffer,
      which is undefined behaviour rather than an exit. */
  datatype Fatal =
    | EmptyDatagram                   // a receive that returned zero bytes
    | UnknownMessageType(tag: int)    // byte 0 is neither the request nor the response tag
    | SendError                       // `sendto` returned a negative count
    | AddressError                    // a link's port or address did not parse
    | SocketError                     // the socket for a new link could not be set up
    | PayloadOverrun                  // no NUL inside the buffer: the source reads past its end

  datatype Result<+T> = Ok(value: T) | Fail(error: Fatal) {

    predicate IsFailure() {
      Fail?
    }

    function PropagateFailure<U>(): Result<U>
      requires Fail?
    {
      Fail(error)
    }

    function Extract(): T
      requires Ok?
    {
      value
    }
  }
}

=== FILE: ports.dfy ===
/** Port strings as `addressParse` reads them: `(uint16_t) atoi(port)`. */
module Ports {
  import opened Bytes

  const Space: Byte := 32
  const Minus: Byte := 45
  const Plus: Byte := 43
  const Zero: Byte := 48
  const Nine: Byte := 57
  const PortRange: nat := 65536

  /** The bytes C's `isspace` accepts. */
  predicate IsSpace(b: Byte) {
    b == Space || 9 <= b <= 13
  }

  predicate IsDigit(b: Byte) {
    Zero <= b <= Nine
  }

  predicate AllDigits(t: Text) {
    forall i :: 0 <= i < |t| ==> IsDigit(t[i])
  }

  /** The text after the leading white space. */
  function SkipSpace(t: Text): (r: Text)
    ensures |r| <= |t| && r == t[|t| - |r|..]
    ensures r == [] || !IsSpace(r[0])
    ensures forall i :: 0 <= i < |t| - |r| ==> IsSpace(t[i])
  {
    if t != [] && IsSpace(t[0]) then SkipSpace(t[1..]) else t
  }

  /** Length of the run of decimal digits that begins `t`. */
  function DigitRun(t: Text): (k: nat)
    ensures k <= |t|
    ensures AllDigits(t[..k])
    ensures k < |t| ==> !IsDigit(t[k])
  {
    if t != [] && IsDigit(t[0]) then 1 + DigitRun(t[1..]) else 0
  }

  /** The number a string of decimal digits spells, most significant first. */
  function DigitsValue(ds: Text): nat
    requires AllDigits(ds)
  {
    if ds == [] then 0
    else DigitsValue(ds[..|ds| - 1]) * 10 + (ds[|ds| - 1] - Zero) as int
  }

  /** C's `atoi`: white space, an optional sign, then as many digits as follow.
      Text without leading digits gives 0. */
  function Atoi(t: Text): (r: int)
    ensures var u := SkipSpace(t);
            u == [] || (u[0] != Minus && u[0] != Plus && !IsDigit(u[0])) ==> r == 0
    ensures r < 0 ==> SkipSpace(t) != [] && SkipSpace(t)[0] == Minus
  {
    var u := SkipSpace(t);
    if u != [] && u[0] == Minus then
      0 - DigitsValue(u[1..][..DigitRun(u[1..])])
    else if u != [] && u[0] == Plus then
      DigitsValue(u[1..][..DigitRun(u[1..])])
    else
      DigitsValue(u[..DigitRun(u)])
  }

  /** The port a link's port string names: `atoi` narrowed to 16 bits.
      Conversion to `uint16_t` is reduction modulo 2^16, which is what
      Dafny's `%` computes for negative operands as well. */
  function PortNumber(port: Text): (p: nat)
    ensures p < PortRange
    ensures (Atoi(port) - p) % PortRange == 0
    ensures 0 < Atoi(port) < PortRange ==> p == Atoi(port)
  {
    Atoi(port) % PortRange
  }

  /** The decimal spelling of `n`, without leading zeros. */
  function Decimal(n: nat): (t: Text)
    ensures t != [] && AllDigits(t)
    ensures n > 0 ==> t[0] != Zero
  {
    if n < 10 then [(Zero as int + n) as Byte]
    else Decimal(n / 10) + [(Zero as int + n % 10) as Byte]
  }

  lemma {:induction false} DigitsValueOfDecimal(n: nat)
    ensures DigitsValue(Decimal(n)) == n
  {
    if n >= 10 {
      var d := Decimal(n);
      assert d[..|d| - 1] == Decimal(n / 10);
      DigitsValueOfDecimal(n / 10);
    }
  }

  /** `atoi` reads back every number written in decimal. */
  lemma AtoiOfDecimal(n: nat)
    ensures Atoi(Decimal(n)) == n
  {
    var d := Decimal(n);
    assert IsDigit(d[0]) && !IsSpace(d[0]);
    assert SkipSpace(d) == d;
    DigitRunOfDigits(d);
    assert d[..|d|] == d;
    DigitsValueOfDecimal(n);
  }

  /** A port written in decimal names itself when it is below 65536; in
      particular "0" names port 0, which a link may not use. */
  lemma PortOfDecimal(n: nat)
    requires n < PortRange
    ensures PortNumber(Decimal(n)) == n
  {
    AtoiOfDecimal(n);
    assert Atoi(Decimal(n)) == n;
    assert n % PortRange == n;
  }

  /** Ports wrap around: "65536" is port 0 and "65537" is port 1. */
  lemma PortWrapsAround(n: nat)
    requires n < PortRange
    ensures PortNumber(Decimal(PortRange + n)) == n
  {
    AtoiOfDecimal(PortRange + n);
    assert Atoi(Decimal(PortRange + n)) == PortRange + n;
    assert (PortRange + n) % PortRange == n;
  }

  /** A port string that begins with something other than white space, a
      sign or a digit names port 0. */
  lemma NonNumericPortIsZero(port: Text)
    requires port != [] && !IsSpace(port[0]) && !IsDigit(port[0])
    requires port[0] != Minus && port[0] != Plus
    ensures PortNumber(port) == 0
  {
    assert SkipSpace(port) == port;
    assert DigitRun(port) == 0;
  }

  /** A negative port is accepted: "-n" names port 65536 - n. */
  lemma NegativePortWraps(n: nat)
    requires 0 < n < PortRange
    ensures PortNumber([Minus] + Decimal(n)) == PortRange - n
  {
    AtoiOfNegative(n);
    assert (-(n as int)) % PortRange == PortRange - n;
  }

  lemma AtoiOfNegative(n: nat)
    ensures Atoi([Minus] + Decimal(n)) == -(n as int)
  {
    var d := Decimal(n);
    var t := [Minus] + d;
    assert t[0] == Minus && !IsSpace(t[0]);
    assert SkipSpace(t) == t;
    assert t[1..] == d;
    DigitRunOfDigits(d);
    assert d[..|d|] == d;
    DigitsValueOfDecimal(n);
  }

  lemma {:induction false} DigitRunOfDigits(t: Text)
    requires AllDigits(t)
    ensures DigitRun(t) == |t|
  {
    if t != [] {
      assert IsDigit(t[0]);
      DigitRunOfDigits(t[1..]);
    }
  }

  /** `atoi` stops at the first byte that is not a digit: "80abc" is 80. */
  lemma AtoiIgnoresTrailing(n: nat, rest: Text)
    requires rest == [] || !IsDigit(rest[0])
    ensures Atoi(Decimal(n) + rest) == n
  {
    var d := Decimal(n);
    var t := d + rest;
    assert t[0] == d[0] && IsDigit(t[0]) && !IsSpace(t[0]);
    assert SkipSpace(t) == t;
    DigitRunOfDigitsThen(d, rest);
    assert t[..|d|] == d;
    DigitsValueOfDecimal(n);
  }

  lemma {:induction false} DigitRunOfDigitsThen(d: Text, rest: Text)
    requires AllDigits(d)
    requires rest == [] || !IsDigit(rest[0])
    ensures DigitRun(d + rest) == |d|
  {
    if d != [] {
      assert (d + rest)[0] == d[0];
      assert (d + rest)[1..] == d[1..] + rest;
      DigitRunOfDigitsThen(d[1..], rest);
    } else {
      assert d + rest == rest;
    }
  }

  /** `atoi` skips leading white space: " 80" is 80. */
  lemma AtoiSkipsSpace(b: Byte, t: Text)
    requires IsSpace(b)
    ensures Atoi([b] + t) == Atoi(t)
  {
    assert ([b] + t)[1..] == t;
  }
}

=== FILE: registry.dfy ===
/** The node's local table of hostnames and addresses. */
module Registry {
  import opened Bytes
  import opened Outcomes
  import opened Wire

  type Hosts = map<Text, Text>

  /** Whether `AddHost` created an entry or replaced one. */
  datatype Upsert = Inserted | Updated

  /** `hosts.find(hostname)`. */
  function Lookup(hosts: Hosts, hostname: Text): (r: Option<Text>)
    ensures r.Some? <==> hostname in hosts
    ensures r.Some? ==> r.value == hosts[hostname]
  {
    if hostname in hosts then Some(hosts[hostname]) else None
  }

  /** Registers `ip` under `hostname`, replacing any earlier address. */
  function AddHost(hosts: Hosts, hostname: Text, ip: Text): (r: (Hosts, Upsert))
    ensures Lookup(r.0, hostname) == Some(ip)
    ensures forall h :: h != hostname ==> Lookup(r.0, h) == Lookup(hosts, h)
    ensures r.0.Keys == hosts.Keys + {hostname}
    ensures r.1 == Updated <==> hostname in hosts
    ensures |r.0| == if hostname in hosts then |hosts| else |hosts| + 1
  {
    if hostname in hosts then
      (hosts[hostname := ip], Updated)
    else
      (hosts[hostname := ip], Inserted)
  }

  /** A second `AddHost` for the same hostname wins, and reports an update. */
  lemma LastAddWins(hosts: Hosts, hostname: Text, ip1: Text, ip2: Text)
    ensures var first := AddHost(hosts, hostname, ip1).0;
            var second := AddHost(first, hostname, ip2);
            Lookup(second.0, hostname) == Some(ip2) && second.1 == Updated
            && second.0.Keys == first.Keys
  {
  }

  /** Every address in the table can be copied into a response. */
  predicate Encodable(hosts: Hosts) {
    forall h :: h in hosts ==> Fits(hosts[h])
  }

  /** Adding an address that fits keeps the table encodable. */
  lemma AddHostKeepsEncodable(hosts: Hosts, hostname: Text, ip: Text)
    requires Encodable(hosts) && Fits(ip)
    ensures Encodable(AddHost(hosts, hostname, ip).0)
  {
  }
}

=== FILE: resolver.dfy ===
/** Resolution of a hostname: the local table first, then the links in the
    order they were registered, then not-found. */
module Resolver {
  import opened Bytes
  import opened Outcomes
  import opened Wire
  import opened Registry
  import opened Links

  /** The state a node shares between its command path and its listener. */
  datatype Node = Node(hosts: Hosts, links: seq<Link>)

  /** One query to one link: the send failed, the receive returned a negative
      count (the five-second timeout, or any other receive error), or a
      datagram arrived. */
  datatype Exchange = SendFailed | NoReply | Received(data: seq<Byte>)

  /** The network as seen from the resolver: what a link answers to a
      request buffer. */
  type Peer = (Link, seq<Byte>) -> Exchange

  /** What one exchange contributes to the chain: move on to the next link,
      stop with an address, or end the process. */
  datatype Verdict = Miss | Hit(ip: Text) | Abort(error: Fatal)

  /** `to_string(HOSTNAME_NOT_FOUND)`, the text "-1" the chain returns when
      no link answered. */
  const NotFoundText: Text := [45, 49]

  /** One step of the chain. The reply's byte 0 is never looked at; only a
      reply whose byte 1 is not the not-found mark counts as an answer. */
  function Classify(ex: Exchange): (v: Verdict)
    ensures v.Miss? <==> ex.NoReply? || (ex.Received? && |ex.data| >= 2 && ex.data[1] == NotFoundMark)
    ensures v.Abort? && v.error == EmptyDatagram <==> ex == Received([])
    ensures v.Abort? && v.error == SendError <==> ex.SendFailed?
    ensures v.Hit? <==> ex.Received? && ex.data != [] && Deliver(ex.data)[1] != NotFoundMark
                        && !NulFree(Deliver(ex.data)[1..])
    ensures v.Hit? ==> NulFree(v.ip) && |v.ip| <= MaxPayload
    ensures v.Hit? && ex.Received? ==> v.ip == CString(ex.data[1..])
  {
    match ex
    case SendFailed => Abort(SendError)
    case NoReply => Miss
    case Received(data) =>
      if data == [] then Abort(EmptyDatagram)
      else
        DeliverKeepsPayload(data);
        var b := Deliver(data);
        if b[1] == NotFoundMark then Miss
        else
          match ReadPayload(b)
          case None => Abort(PayloadOverrun)
          case Some(ip) => Hit(ip)
  }

  /** A link that replies with a buffer carrying `ip` is taken to have
      answered `ip`, unless `ip` begins with the not-found mark. Byte 0 is
      not checked: a reply tagged as a request counts as well. */
  lemma ClassifyReply(tag: Byte, ip: Text)
    requires NulFree(ip) && |ip| <= MaxPayload
    requires ip == [] || ip[0] != NotFoundMark
    ensures Fits(ip)
    ensures Classify(Received(Frame(tag, ip))) == Hit(ip)
  {
    var b := Frame(tag, ip);
    assert CString(ip) == ip;
    DeliverBuffer(b);
    assert b[1] != NotFoundMark by {
      if ip == [] {
        assert b[1] == Nul;
      } else {
        assert b[1..1 + |ip|][0] == ip[0];
      }
    }
    ReadFrame(tag, ip);
    assert ReadPayload(Deliver(b)) == Some(ip);
  }

  /** The outcome of the chain: the text returned, and how many links were
      queried to get it. */
  datatype Answer = Answer(ip: Text, queried: nat)

  /** `searchHostOnLinkedServers`: each link in turn is sent the request for
      `hostname`; the first one that answers ends the chain. */
  function Federate(links: seq<Link>, hostname: Text, peer: Peer): (r: Result<Answer>)
    requires Fits(hostname)
    ensures r.Ok? ==> r.value.queried <= |links|
    ensures r.Ok? ==> NulFree(r.value.ip) && |r.value.ip| <= MaxPayload
    ensures r.Ok? ==> forall j :: 0 <= j < r.value.queried - 1 ==>
              Classify(peer(links[j], RequestFrame(hostname))).Miss?
    ensures r.Ok? && 0 < r.value.queried < |links| ==>
              Classify(peer(links[r.value.queried - 1], RequestFrame(hostname))) == Hit(r.value.ip)
    decreases |links|
  {
    if links == [] then Ok(Answer(NotFoundText, 0))
    else
      match Classify(peer(links[0], RequestFrame(hostname)))
      case Abort(e) => Fail(e)
      case Hit(ip) => Ok(Answer(ip, 1))
      case Miss =>
        var rest :- Federate(links[1..], hostname, peer);
        Ok(Answer(rest.ip, rest.queried + 1))
  }

  /** The chain returns the answer of the first link, in registration order,
      that did not miss, after querying exactly the links up to it. */
  lemma {:induction false} FederateFirstHit(links: seq<Link>, hostname: Text, peer: Peer, k: nat, ip: Text)
    requires Fits(hostname)
    requires k < |links|
    requires forall j :: 0 <= j < k ==> Classify(peer(links[j], RequestFrame(hostname))).Miss?
    requires Classify(peer(links[k], RequestFrame(hostname))) == Hit(ip)
    ensures Federate(links, hostname, peer) == Ok(Answer(ip, k + 1))
    decreases k
  {
    if k > 0 {
      assert Classify(peer(links[0], RequestFrame(hostname))).Miss?;
      FederateFirstHit(links[1..], hostname, peer, k - 1, ip);
    }
  }

  /** When every link misses, the chain queries them all and returns "-1". */
  lemma {:induction false} FederateAllMiss(links: seq<Link>, hostname: Text, peer: Peer)
    requires Fits(hostname)
    requires forall j :: 0 <= j < |links| ==> Classify(peer(links[j], RequestFrame(hostname))).Miss?
    ensures Federate(links, hostname, peer) == Ok(Answer(NotFoundText, |links|))
    decreases |links|
  {
    if links != [] {
      assert Classify(peer(links[0], RequestFrame(hostname))).Miss?;
      FederateAllMiss(links[1..], hostname, peer);
    }
  }

  /** A fatal exchange with the first link that did not miss ends the process. */
  lemma {:induction false} FederateFirstAbort(links: seq<Link>, hostname: Text, peer: Peer, k: nat, e: Fatal)
    requires Fits(hostname)
    requires k < |links|
    requires forall j :: 0 <= j < k ==> Classify(peer(links[j], RequestFrame(hostname))).Miss?
    requires Classify(peer(links[k], RequestFrame(hostname))) == Abort(e)
    ensures Federate(links, hostname, peer) == Fail(e)
    decreases k
  {
    if k > 0 {
      assert Classify(peer(links[0], RequestFrame(hostname))).Miss?;
      FederateFirstAbort(links[1..], hostname, peer, k - 1, e);
    }
  }

  /** Links after the one that answered are not queried: any network that
      agrees on the queried links gives the same answer. */
  lemma {:induction false} FederateIgnoresLaterLinks(links: seq<Link>, hostname: Text, peer: Peer, other: Peer)
    requires Fits(hostname)
    requires Federate(links, hostname, peer).Ok?
    requires forall j :: 0 <= j < Federate(links, hostname, peer).value.queried ==>
               other(links[j], RequestFrame(hostname)) == peer(links[j], RequestFrame(hostname))
    ensures Federate(links, hostname, other) == Federate(links, hostname, peer)
    decreases |links|
  {
    if links != [] {
      assert other(links[0], RequestFrame(hostname)) == peer(links[0], RequestFrame(hostname));
      if Classify(peer(links[0], RequestFrame(hostname))).Miss? {
        var rest := Federate(links[1..], hostname, peer);
        forall j | 0 <= j < rest.value.queried
          ensures other(links[1..][j], RequestFrame(hostname)) == peer(links[1..][j], RequestFrame(hostname))
        {
          assert links[1..][j] == links[j + 1];
        }
        FederateIgnoresLaterLinks(links[1..], hostname, peer, other);
      }
    }
  }

  /** Hostnames `searchHost` can look up without overflowing the request
      buffer: the request is only built when the chain is consulted. */
  predicate Forwardable(node: Node, hostname: Text) {
    hostname in node.hosts || node.links == [] || Fits(hostname)
  }

  /** `searchHost`: the local entry if there is one; otherwise not-found when
      there are no links; otherwise the chain's answer, where "-1" means
      not-found. */
  function SearchHost(node: Node, hostname: Text, peer: Peer): (r: Result<Resolution>)
    requires Forwardable(node, hostname)
    ensures hostname in node.hosts ==> r == Ok(Found(node.hosts[hostname]))
    ensures hostname !in node.hosts && node.links == [] ==> r == Ok(NotFound)
    ensures r == Ok(NotFound) ==> hostname !in node.hosts
  {
    if hostname in node.hosts then Ok(Found(node.hosts[hostname]))
    else if node.links != [] then
      var answer :- Federate(node.links, hostname, peer);
      if answer.ip == NotFoundText then Ok(NotFound) else Ok(Found(answer.ip))
    else Ok(NotFound)
  }

  /** A local entry is answered without consulting any link: the network
      has no influence on the result. */
  lemma SearchLocalIgnoresPeers(node: Node, hostname: Text, peer: Peer, other: Peer)
    requires hostname in node.hosts
    ensures SearchHost(node, hostname, peer) == SearchHost(node, hostname, other)
  {
  }

  /** With no local entry, the first link (in registration order) that
      answers decides the result; an answer that is literally "-1" cannot
      be told apart from not-found. */
  lemma SearchFirstHit(node: Node, hostname: Text, peer: Peer, k: nat, ip: Text)
    requires hostname !in node.hosts && Fits(hostname)
    requires k < |node.links|
    requires forall j :: 0 <= j < k ==> Classify(peer(node.links[j], RequestFrame(hostname))).Miss?
    requires Classify(peer(node.links[k], RequestFrame(hostname))) == Hit(ip)
    ensures ip != NotFoundText ==> SearchHost(node, hostname, peer) == Ok(Found(ip))
    ensures ip == NotFoundText ==> SearchHost(node, hostname, peer) == Ok(NotFound)
  {
    FederateFirstHit(node.links, hostname, peer, k, ip);
  }

  /** With no local entry and every link missing, the result is not-found. */
  lemma SearchAllMiss(node: Node, hostname: Text, peer: Peer)
    requires hostname !in node.hosts && Fits(hostname)
    requires forall j :: 0 <= j < |node.links| ==> Classify(peer(node.links[j], RequestFrame(hostname))).Miss?
    ensures SearchHost(node, hostname, peer) == Ok(NotFound)
  {
    if node.links != [] {
      FederateAllMiss(node.links, hostname, peer);
    }
  }
}

=== FILE: wire.dfy ===
/** The fixed 1024-byte datagram the nodes exchange: byte 0 is the message
    type, bytes 1.. a NUL-terminated payload, the rest zero. */
module Wire {
  import opened Bytes
  import opened Outcomes

  const BufferSize: nat := 1024
  const RequestTag: Byte := 1
  const ResponseTag: Byte := 2
  /** Byte 1 of a response that carries no address. */
  const NotFoundMark: Byte := -1
  /** Longest payload `strcpy` can put behind the tag and still terminate. */
  const MaxPayload: nat := BufferSize - 2

  predicate IsBuffer(b: seq<Byte>) {
    |b| == BufferSize
  }

  /** `strcpy(&buffer[1], t.c_str())` stays inside the buffer. */
  predicate Fits(t: Text) {
    |CString(t)| <= MaxPayload
  }

  /** What a lookup yields: an address, or nothing. */
  datatype Resolution = Found(ip: Text) | NotFound

  datatype Message = Request(hostname: Text) | Response(answer: Resolution)

  /** A zeroed buffer with `tag` in byte 0 and `payload` copied from byte 1
      up to its first NUL. */
  function Frame(tag: Byte, payload: Text): (b: seq<Byte>)
    requires Fits(payload)
    ensures IsBuffer(b) && b[0] == tag
    ensures b[1..1 + |CString(payload)|] == CString(payload)
    ensures forall i :: 1 + |CString(payload)| <= i < BufferSize ==> b[i] == Nul
  {
    var c := CString(payload);
    [tag] + c + Zeros(BufferSize - 1 - |c|)
  }

  /** The request a node sends to each of its links. */
  function RequestFrame(hostname: Text): (b: seq<Byte>)
    requires Fits(hostname)
    ensures IsBuffer(b) && b[0] == RequestTag
  {
    Frame(RequestTag, hostname)
  }

  /** A response carrying an address. */
  function FoundFrame(ip: Text): (b: seq<Byte>)
    requires Fits(ip)
    ensures IsBuffer(b) && b[0] == ResponseTag
  {
    Frame(ResponseTag, ip)
  }

  /** The not-found response: tag, the -1 mark, a terminator, zeros. */
  function NotFoundFrame(): (b: seq<Byte>)
    ensures IsBuffer(b)
    ensures b[0] == ResponseTag && b[1] == NotFoundMark
    ensures forall i :: 2 <= i < BufferSize ==> b[i] == Nul
  {
    [ResponseTag, NotFoundMark] + Zeros(BufferSize - 2)
  }

  /** The response that answers a request with `answer`. */
  function EncodeAnswer(answer: Resolution): (b: seq<Byte>)
    requires answer.Found? ==> Fits(answer.ip)
    ensures IsBuffer(b) && b[0] == ResponseTag
    ensures answer.NotFound? ==> b[1] == NotFoundMark
  {
    match answer
    case Found(ip) => FoundFrame(ip)
    case NotFound => NotFoundFrame()
  }

  /** The buffer after `memset` and a `recvfrom` that delivered `data`:
      a datagram longer than the buffer is cut, a shorter one zero-filled. */
  function Deliver(data: seq<Byte>): (b: seq<Byte>)
    ensures IsBuffer(b)
    ensures |data| <= BufferSize ==> b[..|data|] == data
    ensures forall i :: |data| <= i < BufferSize ==> b[i] == Nul
    ensures |data| >= BufferSize ==> b == data[..BufferSize]
  {
    if |data| >= BufferSize then data[..BufferSize]
    else data + Zeros(BufferSize - |data|)
  }

  /** `std::string(&buffer[1])`: the payload up to its terminator, or
      `None` when bytes 1.. hold no NUL and the read would leave the buffer. */
  function ReadPayload(b: seq<Byte>): (r: Option<Text>)
    requires IsBuffer(b)
    ensures r.Some? ==> r.value == CString(b[1..])
    ensures r.Some? ==> NulFree(r.value) && |r.value| <= MaxPayload
    ensures r.Some? ==> b[1..1 + |r.value|] == r.value && b[1 + |r.value|] == Nul
    ensures r.None? <==> NulFree(b[1..])
  {
    var k := NulIndex(b[1..]);
    if k < BufferSize - 1 then Some(b[1..][..k]) else None
  }

  /** How the listener reads a datagram: dispatch on byte 0, and for a
      response on whether byte 1 is the not-found mark. */
  function Decode(b: seq<Byte>): (r: Result<Message>)
    requires IsBuffer(b)
    ensures r.Fail? && r.error.UnknownMessageType? <==> b[0] != RequestTag && b[0] != ResponseTag
    ensures r.Ok? && r.value.Response? && r.value.answer.NotFound? <==> b[0] == ResponseTag && b[1] == NotFoundMark
    ensures r.Ok? && r.value.Request? <==> b[0] == RequestTag && !NulFree(b[1..])
    ensures r.Ok? && r.value.Response? && r.value.answer.Found? <==>
              b[0] == ResponseTag && b[1] != NotFoundMark && !NulFree(b[1..])
    ensures r.Ok? && r.value.Request? ==> r.value.hostname == CString(b[1..])
    ensures r.Ok? && r.value.Request? ==> NulFree(r.value.hostname) && |r.value.hostname| <= MaxPayload
    ensures r.Ok? && r.value.Response? && r.value.answer.Found? ==> r.value.answer.ip == CString(b[1..])
    ensures r.Ok? && r.value.Response? && r.value.answer.Found? ==>
              NulFree(r.value.answer.ip) && |r.value.answer.ip| <= MaxPayload
    ensures r == Fail(PayloadOverrun) <==>
              (b[0] == RequestTag || (b[0] == ResponseTag && b[1] != NotFoundMark)) && NulFree(b[1..])
  {
    if b[0] == RequestTag then
      match ReadPayload(b)
      case None => Fail(PayloadOverrun)
      case Some(hostname) => Ok(Request(hostname))
    else if b[0] == ResponseTag then
      if b[1] == NotFoundMark then Ok(Response(NotFound))
      else
        match ReadPayload(b)
        case None => Fail(PayloadOverrun)
        case Some(ip) => Ok(Response(Found(ip)))
    else
      Fail(UnknownMessageType(b[0] as int))
  }

  /** The payload written by `Frame` is read back as the string `strcpy` copied. */
  lemma ReadFrame(tag: Byte, payload: Text)
    requires Fits(payload)
    ensures ReadPayload(Frame(tag, payload)) == Some(CString(payload))
  {
    var c := CString(payload);
    var b := Frame(tag, payload);
    assert b[1..] == c + Zeros(BufferSize - 1 - |c|);
    CStringOfTerminated(c, Zeros(BufferSize - 1 - |c|));
  }

  /** A request for a hostname without NUL bytes decodes to that hostname. */
  lemma RequestRoundTrip(hostname: Text)
    requires NulFree(hostname) && |hostname| <= MaxPayload
    ensures Fits(hostname)
    ensures Decode(RequestFrame(hostname)) == Ok(Request(hostname))
  {
    CStringOfNulFree(hostname);
    ReadFrame(RequestTag, hostname);
  }

  /** The not-found response decodes as not-found. */
  lemma NotFoundRoundTrip()
    ensures Decode(NotFoundFrame()) == Ok(Response(NotFound))
  {
  }

  /** A found response decodes back to its address, provided the address
      has no NUL and does not begin with the not-found mark. */
  lemma FoundRoundTrip(ip: Text)
    requires NulFree(ip) && |ip| <= MaxPayload
    requires ip == [] || ip[0] != NotFoundMark
    ensures Fits(ip)
    ensures Decode(FoundFrame(ip)) == Ok(Response(Found(ip)))
  {
    CStringOfNulFree(ip);
    ReadFrame(ResponseTag, ip);
  }

  /** An address whose first byte is 0xFF is indistinguishable on the wire
      from the not-found mark: its response decodes as not-found. */
  lemma FoundShadowedByMark(ip: Text)
    requires NulFree(ip) && 0 < |ip| <= MaxPayload
    requires ip[0] == NotFoundMark
    ensures Fits(ip)
    ensures Decode(FoundFrame(ip)) == Ok(Response(NotFound))
  {
    CStringOfNulFree(ip);
  }

  /** Every answer the listener can send is read back as that answer. */
  lemma AnswerRoundTrip(answer: Resolution)
    requires answer.Found? ==> NulFree(answer.ip) && |answer.ip| <= MaxPayload
    requires answer.Found? ==> answer.ip == [] || answer.ip[0] != NotFoundMark
    ensures answer.Found? ==> Fits(answer.ip)
    ensures Decode(EncodeAnswer(answer)) == Ok(Response(answer))
  {
    if answer.Found? {
      FoundRoundTrip(answer.ip);
    }
  }

  /** The payload read from a received buffer is the string the datagram
      itself carries from byte 1, whether the datagram was zero-filled or cut. */
  lemma DeliverKeepsPayload(data: seq<Byte>)
    requires data != []
    ensures ReadPayload(Deliver(data)).Some? ==> ReadPayload(Deliver(data)).value == CString(data[1..])
  {
    var b := Deliver(data);
    if ReadPayload(b).Some? {
      if |data| < BufferSize {
        assert b[1..] == data[1..] + Zeros(BufferSize - |data|);
        CStringOfPadded(data[1..], BufferSize - |data|);
      } else {
        assert b[1..] == data[1..][..BufferSize - 1];
        CStringOfPrefix(data[1..], BufferSize - 1);
      }
    }
  }

  /** A request need not be a full zero-padded frame: the tag, the hostname
      and a terminator, followed by anything at all, is a request for that
      hostname. */
  lemma RequestWithTrailingBytes(hostname: Text, rest: seq<Byte>)
    requires NulFree(hostname) && |hostname| <= MaxPayload
    ensures Decode(Deliver([RequestTag] + hostname + [Nul] + rest)) == Ok(Request(hostname))
  {
    var data := [RequestTag] + hostname + [Nul] + rest;
    var b := Deliver(data);
    assert data[1..] == hostname + ([Nul] + rest);
    assert b[0] == RequestTag;
    assert b[1..][|hostname|] == Nul;
    DeliverKeepsPayload(data);
    CStringOfTerminated(hostname, [Nul] + rest);
  }

  /** Receiving a whole buffer reproduces it. */
  lemma DeliverBuffer(b: seq<Byte>)
    requires IsBuffer(b)
    ensures Deliver(b) == b
  {
  }
}
